=== FILE: README.md ===
# Campus-Access client core, modelled in Dafny

Campus-Access is an Angular/Ionic client. A student logs in by submitting
identifying details. The client fetches the whole student collection from a
Firebase Realtime Database over REST and matches the details in memory.
A matched student is kept in a session store mirrored into local storage,
and the student can then generate a QR-encoded entry pass that expires after
a 120-second countdown. This project models the pure decision logic of that
client and proves its properties:

- `Directory`: the department/section merge behind the registration
  dropdowns (`getDropdownData`).
- `Login`: the login matcher (`verifyStudentLogin`), meaning alias
  resolution, case-insensitive matching, first match in collection order,
  display-name enrichment and the commit to the session.
- `StudentStore`: the session store (`StudentService`), one optional student
  plus one storage slot.
- `Guards`: the two route guards.
- `QrGenerator`: the pass generator's state machine, with its countdown,
  expiry, `MM:SS` clock and payload.
- `Records`, `Js`, `Wrappers`: the stored record shapes, the JavaScript
  value rules the code relies on (`||` on strings, property-key coercion,
  truncating `%`, `toString`/`padStart`), and Option/Result.

Modelling choices:

- A Firebase collection is `Entries<R> = seq<(string, R)>`, its entries in
  `Object.entries` order, so "first match wins" is expressible. A `null`
  body is `None`. An empty object `{}` is `Some([])`, which is truthy in
  JavaScript, so login then fails with the no-match message rather than
  the no-students message.
- Every stored property is an `Option<string>` (`None` = property absent).
  Two absent values compare equal, as two `undefined`s do. `a || b` falls
  back on `b` when `a` is absent or the empty string.
- The joined HTTP fetch (`forkJoin`) is one `Result` parameter. A failed
  login fetch reports the error's own message, or "Login failed" when that
  is empty. A failed directory fetch reports the fixed directory error.
- The image encoder (`QRCode.toDataURL`) is a parameter
  `encode: Payload -> Option<string>`, where `None` means it threw. The clock
  (`Date.now()`) is a parameter `now`. The interval timer is a `running`
  flag, and each firing of the interval is an explicit `Tick`.
- The storage slot is `Missing | Blank | Stored(student)`. `Blank` is an
  empty-string item, which `loadStudent` reads as no student.

In these places the model follows the exact JavaScript semantics of object
spread and property lookup:

- Object spread lets a stored record's own property override the key
  attached before it. `{ id, ...dept }` keeps a department record's own `id`,
  and `{ firebaseKey: id, ...student }` keeps a student record's own
  `firebaseKey`. An entry's `id` is its key, and a logged-in student's
  `firebaseKey` is its entry key, only when the record lacks that property.
  `Directory.DepartmentIdIsKey` and `Login.LoginKeepsFirebaseKey` prove the
  property under that condition.
- `depts[studentDeptId]` with an absent id looks up the key `"undefined"`.
  `Js.PropertyKey` models that coercion.
- Name lookup takes the first entry with the key. A JSON object has only one.

## Model

| member | source | states |
|---|---|---|
| Records.Lookup | src/app/services/auth.service.ts:131-132 | `obj[key]` finds nothing iff no entry has the key; otherwise it returns the record of the first entry with that key |
| Directory.ToSection | src/app/services/auth.service.ts:61-64 | a section built from an entry keeps the record's name and owner; its id is the record's own `id` when it has one, otherwise the entry key |
| Directory.SectionList | src/app/services/auth.service.ts:61-64 | a `null` sections body gives no sections; otherwise one section per entry, in map order |
| Directory.SectionsOf | src/app/services/auth.service.ts:69 | the filtered list holds exactly the sections whose `departmentId` is the department's id, and is no longer than the input |
| Directory.Merge | src/app/services/auth.service.ts:51-71 | a `null` departments body gives the empty list whatever the sections hold; otherwise one entry per department entry in map order, carrying the entry's id and name, whose sections are exactly those naming that id, in sections-map order (the filter `SectionsOf`, characterised by `SectionsOfAppend` and `SectionsOfSingleton`) |
| Directory.GetDropdownData | src/app/services/auth.service.ts:43-77 | the result fails iff the fetch failed, always with the fixed directory error; there is no partial result |
| Directory.SectionsOfAppend | src/app/services/auth.service.ts:69 | filtering distributes over concatenation, so kept sections keep their relative map order |
| Directory.SectionsOfSingleton | src/app/services/auth.service.ts:69 | a single section is kept iff it names the department |
| Directory.DepartmentIdIsKey | src/app/services/auth.service.ts:55-59 | a department entry without its own `id` property has its map key as id |
| Directory.OrphanSectionListedNowhere | src/app/services/auth.service.ts:67-70 | a section whose `departmentId` names no department is in no department's list |
| Directory.NoSectionsNoLists | src/app/services/auth.service.ts:61-64 | with a `null` sections body every department's list is empty |
| Directory.ExampleMerge | src/app/services/auth.service.ts:51-71 | departments {d1: CS} with sections s1 (d1) and s2 (d2) merge to one department d1 holding only s1 |
| Login.WithKey | src/app/services/auth.service.ts:97-100 | the entry key is attached as `firebaseKey` unless the record has one; no other property changes |
| Login.FirstMatch | src/app/services/auth.service.ts:104-120 | the returned position matches and no earlier entry does; nothing is returned iff no entry matches |
| Login.NameUnder | src/app/services/auth.service.ts:131-132 | a display name is unset when the collection body is `null` or lacks the (coerced) key, and otherwise is the name of an entry stored under the key; used for both the department and the section name |
| Login.Enrich | src/app/services/auth.service.ts:126-141 | the enriched student has `rollNo`, `deptId`, `secId` alias-resolved and display names looked up under the resolved ids; every other property is kept |
| Login.Matches | src/app/services/auth.service.ts:108-119 | the match rule: the roll number (falling back on `id`), department id (falling back on `departmentId`) and section id (falling back on `sectionId`) equal the submitted ones, phone is equal, and name, father's name and email are equal after lower-casing (its consequences are stated by `FirstMatch`, `LoginAgreesWithCredentials` and `MatchIgnoresCase`) |
| Login.MatchAndCommit | src/app/services/auth.service.ts:91-148 | a `null` students body fails with "No students registered in the system"; with students present, success iff some entry matches, otherwise "Login failed. Please verify your details."; failures leave the session unchanged and success registers exactly the returned student |
| Login.VerifyStudentLogin | src/app/services/auth.service.ts:85-159 | fetch failure gives the error's message (or "Login failed"); a `null` students body gives "No students registered in the system"; login succeeds iff some entry matches; a failure with students present is "Login failed. Please verify your details."; every failure leaves the session unchanged; success returns the enriched first matching entry and registers exactly it |
| Login.LoginAgreesWithCredentials | src/app/services/auth.service.ts:108-119 | a logged-in student's roll number, department id, section id and phone equal the submitted ones, its name, father's name and email equal them up to case, and the session holds it |
| Login.LoginKeepsFirebaseKey | src/app/services/auth.service.ts:97-99 | the logged-in student comes from the first matching entry, and its `firebaseKey` is that entry's key unless the record carries its own |
| Login.MatchIgnoresCase | src/app/services/auth.service.ts:114-116 | lower-casing the submitted name, father's name and email does not change whether a record matches |
| StudentStore.LoadStudent | src/app/services/student.service.ts:17-20 | the start-up student is present iff the slot holds a serialised student, and is that student; missing or empty slots read as none |
| StudentStore.IsRegistered | src/app/services/student.service.ts:13 | registered iff a student is held in memory (used by `Init`, `Register`, `Clear` and both guards) |
| StudentStore.Init | src/app/services/student.service.ts:10-20 | the store starts coherent with its slot, registered iff the slot holds a student |
| StudentStore.Register | src/app/services/student.service.ts:22-26 | after `register(s)` memory holds `s`, reloading the slot gives `s`, and the store is registered |
| StudentStore.Clear | src/app/services/student.service.ts:28-32 | after `clear()` the slot is removed, no student is held, and memory and slot agree |
| StudentStore.ClearIdempotent | src/app/services/student.service.ts:28-32 | clearing twice equals clearing once |
| StudentStore.RegisterPersists | src/app/services/student.service.ts:17-26 | restarting after `register(s)` rebuilds exactly the same store, holding `s` |
| StudentStore.RegisterThenClear | src/app/services/student.service.ts:22-32 | register then clear leaves no student, in memory or after a restart |
| Guards.AuthGuard | src/app/guards/auth.guard.ts:5-14 | allows iff a student is registered, otherwise redirects to `/register` |
| Guards.RegistrationGuard | src/app/guards/auth.guard.ts:16-25 | redirects to `/home` iff a student is registered, otherwise allows |
| Guards.GuardsComplementary | src/app/guards/auth.guard.ts:5-25 | in every session state exactly one of the two guards allows |
| Guards.GuardsFollowMutators | src/app/guards/auth.guard.ts:5-25 | after `register` home is open and registration redirects home; after `clear` the reverse |
| QrGenerator.Initial | src/app/components/qr-generator/qr-generator.component.ts:56-58 | a new component has no image, exactly 120 seconds left (so not expired) and no timer |
| QrGenerator.IsExpired | src/app/components/qr-generator/qr-generator.component.ts:60 | the pass is expired iff `timeLeft <= 0` (its consequences are stated by `Tick`, `CountdownFromStart` and `ExpiryLeftOnlyByRegeneration`) |
| QrGenerator.FormattedTime | src/app/components/qr-generator/qr-generator.component.ts:62-66 | the clock is `Math.floor(t / 60)` and JavaScript `t % 60`, each printed and zero-padded to two characters, joined by `:` (its meaning is proved by `FormattedTimeRoundTrip`) |
| QrGenerator.FormattedTimeRoundTrip | src/app/components/qr-generator/qr-generator.component.ts:62-66 | for 0 <= t < 6000 the clock has five characters with `:` in the middle and parses back to t |
| QrGenerator.FullWindowShowsTwoMinutes | src/app/components/qr-generator/qr-generator.component.ts:62-66 | the full 120-second window is shown as `02:00` |
| QrGenerator.BuildPayload | src/app/components/qr-generator/qr-generator.component.ts:80-86 | the payload is tagged `ATTENDANCE_MARKER`, names the student's `firebaseKey` and `rollNo`, carries the given time and the attendance endpoint |
| QrGenerator.StopTimer | src/app/components/qr-generator/qr-generator.component.ts:129-133 | stopping disarms the timer and keeps image, countdown and teardown mark |
| QrGenerator.StartTimer | src/app/components/qr-generator/qr-generator.component.ts:112-116 | starting arms the timer with a fresh unexpired 120-second window and keeps the image and teardown mark |
| QrGenerator.Tick | src/app/components/qr-generator/qr-generator.component.ts:116-126 | a stopped timer never fires; a firing counts down while above 1 and otherwise clamps to 0 and stops; time never goes negative and expiry is never undone by a tick; image and teardown mark are kept |
| QrGenerator.GenerateQrAsWritten | src/app/components/qr-generator/qr-generator.component.ts:68-110 | as written: with no student, or when encoding fails, the state is unchanged; otherwise the new image is shown and a running unexpired 120-second window starts, even on a torn-down component |
| QrGenerator.GenerateQr | src/app/components/qr-generator/qr-generator.component.ts:68-110 | corrected: the same, except that a generation resolving after teardown changes nothing |
| QrGenerator.Destroy | src/app/components/qr-generator/qr-generator.component.ts:135-137 | teardown disarms the timer, marks the component torn down and keeps image and countdown; an immediate firing changes nothing |
| QrGenerator.AsWrittenGenerateRearmsAfterDestroy | src/app/components/qr-generator/qr-generator.component.ts:94-105 | as written, an encoding that resolves after teardown arms a new timer on the torn-down component, which after 120 firings ends expired |
| QrGenerator.DestroyedIsInert | src/app/components/qr-generator/qr-generator.component.ts:135-137 | with the teardown guard, no sequence of events changes a torn-down component |
| QrGenerator.NoRearmAfterDestroy | src/app/components/qr-generator/qr-generator.component.ts:129-137 | with the teardown guard, no events after teardown arm the timer again |
| QrGenerator.StepAsWrittenPreservesValid | src/app/components/qr-generator/qr-generator.component.ts:68-137 | as written, every event keeps the countdown within 0..120 and an armed timer always has time left |
| QrGenerator.AsWrittenExpiryLeftOnlyByRegeneration | src/app/components/qr-generator/qr-generator.component.ts:68-126 | as written, the expired state is left only by a generate event with a student whose pass encodes, on a live or torn-down component alike |
| QrGenerator.StepPreservesValid | src/app/components/qr-generator/qr-generator.component.ts:68-137 | with the teardown guard, every event keeps the countdown within 0..120 and an armed timer always has time left |
| QrGenerator.ExpiryLeftOnlyByRegeneration | src/app/components/qr-generator/qr-generator.component.ts:68-126 | with the teardown guard, the expired state is left only by a generate event on a live component with a student whose pass encodes |
| QrGenerator.CountdownFromStart | src/app/components/qr-generator/qr-generator.component.ts:112-126 | n firings after a start show 120 - n, the timer is armed for n < 120, and after exactly 120 firings the pass is expired and the timer stopped |
| QrGenerator.ExpiredIsFinal | src/app/components/qr-generator/qr-generator.component.ts:116-124 | once the timer has stopped, any number of further firings leaves the state unchanged |

## Findings

| source | as written | input that shows it | evidently intended | confidence | as-written member | corrected member |
|---|---|---|---|---|---|---|
| src/app/components/qr-generator/qr-generator.component.ts:94-105 | after awaiting the encoder, `generateQr` always calls `startTimer()`, even if `ngOnDestroy` ran while the encoding was pending | press generate, leave the page before `QRCode.toDataURL` resolves; the resolution arms an interval on the destroyed component that fires 120 times and ends with the expiry toast | teardown releases the timer for good: a generation resolving afterwards changes nothing | medium, not executed | QrGenerator.AsWrittenGenerateRearmsAfterDestroy | QrGenerator.NoRearmAfterDestroy |

`QrGenerator.StepAsWritten` is the component as written (with `QrGenerator.GenerateQrAsWritten`); `QrGenerator.Step` is the corrected component (with `QrGenerator.GenerateQr`). The countdown bounds and the rule for leaving expiry are proved of both.

## Left out

- HTTP transport (`forkJoin`, `http.get`), RxJS error wrapping and `console` logging: fetches are a `Result` parameter and outcomes a `Result` value.
- `registerStudent` (auth.service.ts:20-37): a PUT wrapper with no logic of its own.
- `QRCode.toDataURL` and JSON serialisation of the payload: the encoder is an opaque parameter that may fail.
- `Date.now()`, `setInterval`/`clearInterval` scheduling and the `await` between encoding and the state update: the clock is a parameter, the timer a flag, and each firing a `Tick`. A generation is one event: firings that arrive while the encoder is pending are not modelled, and a generation resolving after teardown is a `Generate` after `Destroyed` (see Findings).
- `localStorage` and `JSON.parse`/`JSON.stringify`: the slot holds the student value directly. Malformed stored JSON throws in the code and is not modelled.
- Js.Lower: lower-cases ASCII letters only, not full Unicode `toLowerCase`.
- Login.Matches: a stored property of a non-string type (where `toLowerCase` would throw) is not modelled; every property is a string or absent.
- Records.Lookup: JavaScript prototype properties (for example the key `constructor`) are not modelled; a key is found only among the stored entries.
- Properties of stored records other than those in `Student`, `DeptRecord` and `SecRecord` are not carried through the spreads.
- `ToastService` notifications and the home and register pages (`simulate`, `logout`, `onRegister`): UI only. Logout is `StudentStore.Clear`.
- Route configuration and the empty student-card component: framework wiring with no logic.
- Guards: that they leave the session unchanged holds by construction, since they take the session and return none. No separate lemma states it.

=== FILE: directory.dfy ===
/** The department/section directory used by the registration form
    (AuthService.getDropdownData): two collections joined in memory. */
module Directory {
  import opened Wrappers
  import opened Records

  /** A section as the form sees it: the spread record with its key as `id`. */
  datatype Section = Section(id: string, name: Option<string>, departmentId: Option<string>)

  /** A department with the sections that name it as their owner. */
  datatype Department = Department(id: string, name: Option<string>, sections: seq<Section>)

  /** The two collections as fetched together: each is `None` for a `null` body. */
  datatype DirectoryResponse = DirectoryResponse(
    departments: Option<Entries<DeptRecord>>,
    sections: Option<Entries<SecRecord>>)

  const DirectoryError := "Failed to load selection data from Firebase"

  /** `{ id, ...dept }`: a stored `id` property overrides the key. */
  function DeptId(e: (string, DeptRecord)): string {
    e.1.id.GetOr(e.0)
  }

  /** `{ id, ...sec }`: the key becomes `id` unless the record carries its own. */
  function ToSection(e: (string, SecRecord)): (s: Section)
    ensures e.1.id.None? ==> s.id == e.0
    ensures e.1.id.Some? ==> s.id == e.1.id.value
    ensures s.name == e.1.name && s.departmentId == e.1.departmentId
  {
    Section(e.1.id.GetOr(e.0), e.1.name, e.1.departmentId)
  }

  /** The section list built from the sections body; a `null` body gives none. */
  function SectionList(sections: Option<Entries<SecRecord>>): (r: seq<Section>)
    ensures sections.None? ==> r == []
    ensures sections.Some? ==> |r| == |sections.value|
    ensures sections.Some? ==> forall i :: 0 <= i < |r| ==> r[i] == ToSection(sections.value[i])
  {
    match sections
    case None => []
    case Some(m) => seq(|m|, i requires 0 <= i < |m| => ToSection(m[i]))
  }

  /** `secsArray.filter(sec => sec.departmentId === id)`. */
  function SectionsOf(secs: seq<Section>, id: string): (r: seq<Section>)
    ensures |r| <= |secs|
    ensures forall s :: s in r <==> s in secs && s.departmentId == Some(id)
  {
    if |secs| == 0 then []
    else if secs[0].departmentId == Some(id) then [secs[0]] + SectionsOf(secs[1..], id)
    else SectionsOf(secs[1..], id)
  }

  /** The merge: one department per department entry, in map order, each
      holding the sections whose `departmentId` is that department's id. */
  function Merge(response: DirectoryResponse): (r: seq<Department>)
    ensures response.departments.None? ==> r == []
    ensures response.departments.Some? ==> |r| == |response.departments.value|
    ensures response.departments.Some? ==>
      forall i :: 0 <= i < |r| ==>
        var e := response.departments.value[i];
        r[i].id == DeptId(e) && r[i].name == e.1.name
    ensures forall i, s :: 0 <= i < |r| ==>
      (s in r[i].sections <==> s in SectionList(response.sections) && s.departmentId == Some(r[i].id))
    ensures forall i :: 0 <= i < |r| ==> r[i].sections == SectionsOf(SectionList(response.sections), r[i].id)
  {
    match response.departments
    case None => []
    case Some(ds) =>
      var secs := SectionList(response.sections);
      seq(|ds|, i requires 0 <= i < |ds| =>
        Department(DeptId(ds[i]), ds[i].1.name, SectionsOf(secs, DeptId(ds[i]))))
  }

  /** `getDropdownData`: a failed fetch becomes the directory error, never a
      partial result. */
  function GetDropdownData(fetched: Result<DirectoryResponse, string>): (r: Result<seq<Department>, string>)
    ensures r.Failure? <==> fetched.Failure?
    ensures r.Failure? ==> r.error == DirectoryError
    ensures fetched.Success? && fetched.value.departments.None? ==> r == Success([])
    ensures r.Success? ==> r.value == Merge(fetched.value)
  {
    match fetched
    case Failure(_) => Failure(DirectoryError)
    case Success(response) => Success(Merge(response))
  }

  /** Filtering distributes over concatenation, so the kept sections keep
      their relative order from the sections map. */
  lemma {:induction false} SectionsOfAppend(a: seq<Section>, b: seq<Section>, id: string)
    ensures SectionsOf(a + b, id) == SectionsOf(a, id) + SectionsOf(b, id)
  {
    if |a| == 0 {
      assert a + b == b;
    } else {
      assert (a + b)[1..] == a[1..] + b;
      SectionsOfAppend(a[1..], b, id);
    }
  }

  /** A one-element list keeps its section iff the section names the department. */
  lemma SectionsOfSingleton(s: Section, id: string)
    ensures SectionsOf([s], id) == if s.departmentId == Some(id) then [s] else []
  {
  }

  /** With a department record that has no own `id`, the entry's id is its key. */
  lemma DepartmentIdIsKey(response: DirectoryResponse, i: int)
    requires response.departments.Some?
    requires 0 <= i < |response.departments.value|
    requires response.departments.value[i].1.id.None?
    ensures Merge(response)[i].id == response.departments.value[i].0
  {
  }

  /** A section whose `departmentId` names no department appears in no entry. */
  lemma OrphanSectionListedNowhere(response: DirectoryResponse, s: Section)
    requires forall d :: d in Merge(response) ==> s.departmentId != Some(d.id)
    ensures forall d :: d in Merge(response) ==> s !in d.sections
  {
  }

  /** With a `null` sections body every department's list is empty. */
  lemma NoSectionsNoLists(response: DirectoryResponse)
    requires response.sections.None?
    ensures forall d :: d in Merge(response) ==> d.sections == []
  {
  }

  /** Departments {d1: CS} and sections {s1 -> d1, s2 -> d2}: one department
      d1 holding only s1. */
  lemma ExampleMerge()
    ensures
      var response := DirectoryResponse(
        Some([("d1", DeptRecord(None, Some("CS")))]),
        Some([("s1", SecRecord(None, Some("A"), Some("d1"))),
              ("s2", SecRecord(None, Some("B"), Some("d2")))]));
      Merge(response) == [Department("d1", Some("CS"), [Section("s1", Some("A"), Some("d1"))])]
  {
    var s1 := Section("s1", Some("A"), Some("d1"));
    var s2 := Section("s2", Some("B"), Some("d2"));
    var response := DirectoryResponse(
      Some([("d1", DeptRecord(None, Some("CS")))]),
      Some([("s1", SecRecord(None, Some("A"), Some("d1"))),
            ("s2", SecRecord(None, Some("B"), Some("d2")))]));
    assert SectionList(response.sections) == [s1, s2];
    SectionsOfAppend([s1], [s2], "d1");
    assert [s1] + [s2] == [s1, s2];
    assert SectionsOf([s1, s2], "d1") == [s1];
  }
}

=== FILE: guards.dfy ===
/** The two route guards (src/app/guards/auth.guard.ts): each decides from
    the session alone and returns either "allow" or a redirect. They take the
    session as an argument and return no session, so they cannot change it. */
module Guards {
  import opened Records
  import opened StudentStore

  datatype GuardResult = Allow | Redirect(path: string)

  const RegisterPath := "/register"
  const HomePath := "/home"

  /** `authGuard`: the home view needs a registered student. */
  function AuthGuard(ss: Session): (r: GuardResult)
    ensures r == Allow <==> IsRegistered(ss)
    ensures r != Allow ==> r == Redirect(RegisterPath)
  {
    if IsRegistered(ss) then Allow else Redirect(RegisterPath)
  }

  /** `registrationGuard`: the registration view is only for visitors. */
  function RegistrationGuard(ss: Session): (r: GuardResult)
    ensures r == Redirect(HomePath) <==> IsRegistered(ss)
    ensures r != Redirect(HomePath) ==> r == Allow
  {
    if IsRegistered(ss) then Redirect(HomePath) else Allow
  }

  /** In every session state exactly one of the two guards allows. */
  lemma GuardsComplementary(ss: Session)
    ensures (AuthGuard(ss) == Allow) != (RegistrationGuard(ss) == Allow)
  {
  }

  /** After `register` the home view opens and registration redirects home;
      after `clear` it is the other way round. */
  lemma GuardsFollowMutators(ss: Session, s: Student)
    ensures AuthGuard(Register(ss, s)) == Allow
    ensures RegistrationGuard(Register(ss, s)) == Redirect(HomePath)
    ensures AuthGuard(Clear(ss)) == Redirect(RegisterPath)
    ensures RegistrationGuard(Clear(ss)) == Allow
  {
  }
}

=== FILE: js.dfy ===
/** The few JavaScript value rules the application code relies on:
    truthiness of optional strings, the `||` fallback, property-key
    coercion, ASCII lower-casing, truncating remainder, number-to-string
    and `padStart(2, '0')`. */
module Js {
  import opened Wrappers

  /** A possibly-absent string property is truthy iff present and non-empty. */
  predicate Truthy(v: Option<string>) {
    v.Some? && v.value != ""
  }

  /** `a || b` on two possibly-absent string properties. */
  function Or(a: Option<string>, b: Option<string>): (r: Option<string>)
    ensures Truthy(a) ==> r == a
    ensures !Truthy(a) ==> r == b
  {
    if Truthy(a) then a else b
  }

  /** The key `obj[k]` looks up: an absent `k` is coerced to "undefined". */
  function PropertyKey(k: Option<string>): string {
    match k
    case Some(s) => s
    case None => "undefined"
  }

  function LowerChar(c: char): char {
    if 'A' <= c <= 'Z' then (c as int - 'A' as int + 'a' as int) as char else c
  }

  /** `toLowerCase`, restricted to the ASCII letters. */
  function Lower(s: string): (r: string)
    ensures |r| == |s|
    ensures forall i :: 0 <= i < |s| ==> r[i] == LowerChar(s[i])
  {
    seq(|s|, i requires 0 <= i < |s| => LowerChar(s[i]))
  }

  /** `v?.toLowerCase()`: absent stays absent. */
  function LowerOpt(v: Option<string>): Option<string> {
    match v
    case Some(s) => Some(Lower(s))
    case None => None
  }

  lemma LowerIdempotent(s: string)
    ensures Lower(Lower(s)) == Lower(s)
  {
  }

  lemma LowerOptIdempotent(v: Option<string>)
    ensures LowerOpt(LowerOpt(v)) == LowerOpt(v)
  {
    if v.Some? {
      LowerIdempotent(v.value);
    }
  }

  /** JavaScript `a % b` for a positive divisor: the sign follows `a`
      (truncating), unlike Dafny's Euclidean `%`. */
  function Rem(a: int, b: int): (r: int)
    requires b > 0
    ensures a >= 0 ==> 0 <= r < b
    ensures a < 0 ==> -b < r <= 0
    ensures a >= 0 ==> r == a % b
    ensures a < 0 ==> r == -((-a) % b)
  {
    if a >= 0 then a % b else -((-a) % b)
  }

  function DigitChar(d: int): char
    requires 0 <= d < 10
  {
    ('0' as int + d) as char
  }

  predicate IsDigit(c: char) {
    '0' <= c <= '9'
  }

  function DigitValue(c: char): int {
    c as int - '0' as int
  }

  /** Decimal digits of a natural number, without leading zeros. */
  function Digits(n: nat): (r: string)
    ensures 1 <= |r|
    ensures forall i :: 0 <= i < |r| ==> IsDigit(r[i])
    decreases n
  {
    if n < 10 then [DigitChar(n)] else Digits(n / 10) + [DigitChar(n % 10)]
  }

  /** `n.toString()` for an integer number. */
  function IntToString(n: int): string {
    if n < 0 then "-" + Digits(-n) else Digits(n)
  }

  /** `s.padStart(2, '0')`. */
  function PadStart2(s: string): (r: string)
    ensures |s| >= 2 ==> r == s
    ensures |s| < 2 ==> |r| == 2 && r[2 - |s|..] == s
    ensures forall i :: 0 <= i < 2 - |s| ==> r[i] == '0'
  {
    if |s| >= 2 then s else seq(2 - |s|, _ => '0') + s
  }
}

=== FILE: login.dfy ===
/** Student login (AuthService.verifyStudentLogin): a linear scan of the
    student collection for the first record that matches the credentials on
    every field, enrichment of that record with display names, and a commit
    to the session store. */
module Login {
  import opened Wrappers
  import opened Js
  import opened Records
  import StudentStore

  /** The submitted form values; any of them may be absent. */
  datatype Credentials = Credentials(
    name: Option<string>,
    rollNo: Option<string>,
    fatherName: Option<string>,
    email: Option<string>,
    phone: Option<string>,
    deptId: Option<string>,
    secId: Option<string>)

  /** The three collections as fetched together; `None` is a `null` body. */
  datatype LoginResponse = LoginResponse(
    students: Option<Entries<Student>>,
    depts: Option<Entries<DeptRecord>>,
    secs: Option<Entries<SecRecord>>)

  /** What a login attempt yields, and the session store afterwards. */
  datatype LoginOutcome = LoginOutcome(result: Result<Student, string>, session: StudentStore.Session)

  const NoStudentsMessage := "No students registered in the system"
  const NoMatchMessage := "Login failed. Please verify your details."
  const FallbackMessage := "Login failed"

  /** `{ firebaseKey: id, ...student }`: the key is attached unless the record
      already carries a `firebaseKey` of its own. */
  function WithKey(e: (string, Student)): (s: Student)
    ensures e.1.firebaseKey.None? ==> s.firebaseKey == Some(e.0)
    ensures e.1.firebaseKey.Some? ==> s == e.1
    ensures s.(firebaseKey := e.1.firebaseKey) == e.1
  {
    if e.1.firebaseKey.Some? then e.1 else e.1.(firebaseKey := Some(e.0))
  }

  /** The aliased identifiers: `rollNo || id`, `deptId || departmentId`,
      `secId || sectionId`. */
  function RollNoOf(s: Student): Option<string> { Or(s.rollNo, s.id) }
  function DeptIdOf(s: Student): Option<string> { Or(s.deptId, s.departmentId) }
  function SecIdOf(s: Student): Option<string> { Or(s.secId, s.sectionId) }

  /** The match rule: identifiers and phone exactly, names and email after
      lower-casing. Two absent values compare equal, as `undefined` does. */
  predicate Matches(s: Student, c: Credentials) {
    && RollNoOf(s) == c.rollNo
    && LowerOpt(s.name) == LowerOpt(c.name)
    && LowerOpt(s.fatherName) == LowerOpt(c.fatherName)
    && LowerOpt(s.email) == LowerOpt(c.email)
    && s.phone == c.phone
    && DeptIdOf(s) == c.deptId
    && SecIdOf(s) == c.secId
  }

  /** `studentsArray.find(...)`: the position of the first matching entry. */
  function FirstMatch(m: Entries<Student>, c: Credentials): (r: Option<nat>)
    ensures r.Some? ==> r.value < |m| && Matches(WithKey(m[r.value]), c)
    ensures r.Some? ==> forall j :: 0 <= j < r.value ==> !Matches(WithKey(m[j]), c)
    ensures r.None? <==> forall j :: 0 <= j < |m| ==> !Matches(WithKey(m[j]), c)
  {
    if |m| == 0 then None
    else if Matches(WithKey(m[0]), c) then Some(0)
    else match FirstMatch(m[1..], c)
      case Some(k) => Some(k + 1)
      case None => None
  }

  /** `coll && coll[id] ? coll[id].name : undefined`, for a collection whose
      records carry a display name read by `name`. */
  function NameUnder<R>(coll: Option<Entries<R>>, id: Option<string>, name: R -> Option<string>): (r: Option<string>)
    ensures coll.None? ==> r.None?
    ensures coll.Some? && (forall i :: 0 <= i < |coll.value| ==> coll.value[i].0 != PropertyKey(id)) ==> r.None?
    ensures coll.Some? && (exists i :: 0 <= i < |coll.value| && coll.value[i].0 == PropertyKey(id)) ==>
      exists i :: 0 <= i < |coll.value| && coll.value[i].0 == PropertyKey(id) && r == name(coll.value[i].1)
  {
    match coll
    case None => None
    case Some(m) =>
      match Lookup(m, PropertyKey(id))
      case Some(rec) => name(rec)
      case None => None
  }

  function DeptName(d: DeptRecord): Option<string> { d.name }
  function SecName(s: SecRecord): Option<string> { s.name }

  /** The enriched student: the matched record with its aliases resolved and
      the display names looked up; every other property is kept. */
  function Enrich(s: Student, depts: Option<Entries<DeptRecord>>, secs: Option<Entries<SecRecord>>): (r: Student)
    ensures r.rollNo == RollNoOf(s) && r.deptId == DeptIdOf(s) && r.secId == SecIdOf(s)
    ensures r.department == NameUnder(depts, r.deptId, DeptName)
    ensures r.section == NameUnder(secs, r.secId, SecName)
    ensures r.(rollNo := s.rollNo, deptId := s.deptId, secId := s.secId,
               department := s.department, section := s.section) == s
  {
    var deptId := DeptIdOf(s);
    var secId := SecIdOf(s);
    s.(rollNo := RollNoOf(s), deptId := deptId, secId := secId,
       department := NameUnder(depts, deptId, DeptName), section := NameUnder(secs, secId, SecName))
  }

  /** The outcome of the mapped stream once the collections have arrived. */
  function MatchAndCommit(response: LoginResponse, c: Credentials, ss: StudentStore.Session): (out: LoginOutcome)
    ensures response.students.None? ==> out == LoginOutcome(Failure(NoStudentsMessage), ss)
    ensures out.result.Failure? ==> out.session == ss
    ensures out.result.Success? ==> out.session == StudentStore.Register(ss, out.result.value)
    ensures response.students.Some? && out.result.Failure? ==> out.result.error == NoMatchMessage
    ensures out.result.Success? <==>
      response.students.Some? &&
      exists i :: 0 <= i < |response.students.value| && Matches(WithKey(response.students.value[i]), c)
  {
    match response.students
    case None => LoginOutcome(Failure(NoStudentsMessage), ss)
    case Some(m) =>
      match FirstMatch(m, c)
      case None => LoginOutcome(Failure(NoMatchMessage), ss)
      case Some(i) =>
        var enriched := Enrich(WithKey(m[i]), response.depts, response.secs);
        LoginOutcome(Success(enriched), StudentStore.Register(ss, enriched))
  }

  /** `verifyStudentLogin`: a failed fetch, an absent collection and a
      failed match all leave the session store as it was; a match commits
      the enriched first matching record. */
  function VerifyStudentLogin(fetched: Result<LoginResponse, string>, c: Credentials, ss: StudentStore.Session): (out: LoginOutcome)
    ensures fetched.Failure? ==>
      out == LoginOutcome(Failure(if fetched.error != "" then fetched.error else FallbackMessage), ss)
    ensures fetched.Success? && fetched.value.students.None? ==>
      out == LoginOutcome(Failure(NoStudentsMessage), ss)
    ensures out.result.Failure? ==> out.session == ss
    ensures out.result.Success? ==> out.session == StudentStore.Register(ss, out.result.value)
    ensures out.result.Success? <==>
      fetched.Success? && fetched.value.students.Some? &&
      exists i :: 0 <= i < |fetched.value.students.value| && Matches(WithKey(fetched.value.students.value[i]), c)
    ensures fetched.Success? && fetched.value.students.Some? && out.result.Failure? ==>
      out.result.error == NoMatchMessage
    ensures out.result.Success? ==>
      var m := fetched.value.students.value;
      exists i :: 0 <= i < |m| && Matches(WithKey(m[i]), c)
        && (forall j :: 0 <= j < i ==> !Matches(WithKey(m[j]), c))
        && out.result.value == Enrich(WithKey(m[i]), fetched.value.depts, fetched.value.secs)
  {
    match fetched
    case Failure(e) => LoginOutcome(Failure(if e != "" then e else FallbackMessage), ss)
    case Success(response) => MatchAndCommit(response, c, ss)
  }

  /** A successful login (the students body is present and some entry
      matches) returns a student whose identifiers and phone are exactly the
      submitted ones and whose names and email equal them up to case; the
      store then holds that student. */
  lemma LoginAgreesWithCredentials(response: LoginResponse, c: Credentials, ss: StudentStore.Session)
    requires response.students.Some? && FirstMatch(response.students.value, c).Some?
    ensures VerifyStudentLogin(Success(response), c, ss).result.Success?
    ensures
      var s := VerifyStudentLogin(Success(response), c, ss).result.value;
      && s.rollNo == c.rollNo && s.deptId == c.deptId && s.secId == c.secId
      && s.phone == c.phone
      && LowerOpt(s.name) == LowerOpt(c.name)
      && LowerOpt(s.fatherName) == LowerOpt(c.fatherName)
      && LowerOpt(s.email) == LowerOpt(c.email)
      && VerifyStudentLogin(Success(response), c, ss).session.student == Some(s)
  {
  }

  /** On a successful login the student comes from the first matching
      entry, and that entry's key survives as its `firebaseKey` unless the
      record carries its own. */
  lemma LoginKeepsFirebaseKey(response: LoginResponse, c: Credentials, ss: StudentStore.Session)
    requires response.students.Some? && FirstMatch(response.students.value, c).Some?
    ensures VerifyStudentLogin(Success(response), c, ss).result.Success?
    ensures
      var m := response.students.value;
      var e := m[FirstMatch(m, c).value];
      var s := VerifyStudentLogin(Success(response), c, ss).result.value;
      s.firebaseKey == Some(e.1.firebaseKey.GetOr(e.0))
  {
  }

  /** Matching ignores the case of the submitted name, father's name and email. */
  lemma {:induction false} MatchIgnoresCase(s: Student, c: Credentials)
    ensures Matches(s, c) <==>
      Matches(s, c.(name := LowerOpt(c.name), fatherName := LowerOpt(c.fatherName), email := LowerOpt(c.email)))
  {
    LowerOptIdempotent(c.name);
    LowerOptIdempotent(c.fatherName);
    LowerOptIdempotent(c.email);
  }
}

=== FILE: qr_generator.dfy ===
/** The access-pass generator (QrGeneratorComponent): the encoded pass image
    and a 120-second countdown that expires it. The interval timer is a
    `running` flag and each firing is an explicit `Tick`; the clock and the
    image encoder are parameters. */
module QrGenerator {
  import opened Wrappers
  import opened Js
  import opened Records

  const ValiditySeconds := 120
  const MarkerType := "ATTENDANCE_MARKER"
  const AttendanceEndpoint := "https://campusaccessbackend-default-rtdb.asia-southeast1.firebasedatabase.app/attendance.json"

  /** The object serialised into the pass. */
  datatype Payload = Payload(
    kind: string,
    studentId: Option<string>,
    rollNo: Option<string>,
    timestamp: int,
    apiEndpoint: string)

  /** The component state: the image (if any), the seconds left, whether
      the interval timer is armed, and whether the component has been torn
      down. */
  datatype QrState = QrState(qrCodeUrl: Option<string>, timeLeft: int, running: bool, destroyed: bool)

  /** What can happen to the component: a timer firing, a completed
      generation with the current student and clock, and teardown. A
      `Generate` after `Destroyed` is a generation whose encoding was started
      before teardown and resolves after it: the button is gone by then. */
  datatype Event = TimerFired | Generate(student: Option<Student>, now: int) | Destroyed

  /** `isExpired`. */
  predicate IsExpired(st: QrState) {
    st.timeLeft <= 0
  }

  /** The states the component can be in: the countdown stays within the
      window, and an armed timer always has time left. */
  predicate Valid(st: QrState) {
    0 <= st.timeLeft <= ValiditySeconds && (st.running ==> st.timeLeft > 0)
  }

  /** The freshly created component: no image, a full window, no timer. */
  function Initial(): (st: QrState)
    ensures st.timeLeft == ValiditySeconds
    ensures Valid(st) && !IsExpired(st) && !st.running && st.qrCodeUrl.None?
    ensures !st.destroyed
  {
    QrState(None, ValiditySeconds, false, false)
  }

  /** `formattedTime`: `Math.floor(t / 60)` and JavaScript `t % 60`, each
      printed and padded to two characters. Dafny's `/` by a positive
      divisor already rounds down. */
  function FormattedTime(t: int): string {
    PadStart2(IntToString(t / 60)) + ":" + PadStart2(IntToString(Rem(t, 60)))
  }

  /** Reads an `MM:SS` clock back into seconds. */
  function ParseClock(s: string): Option<int> {
    if |s| == 5 && IsDigit(s[0]) && IsDigit(s[1]) && s[2] == ':' && IsDigit(s[3]) && IsDigit(s[4])
    then Some(60 * (10 * DigitValue(s[0]) + DigitValue(s[1])) + 10 * DigitValue(s[3]) + DigitValue(s[4]))
    else None
  }

  lemma TwoDigits(n: int)
    requires 0 <= n < 100
    ensures PadStart2(IntToString(n)) == [DigitChar(n / 10), DigitChar(n % 10)]
  {
    if n >= 10 {
      assert Digits(n) == Digits(n / 10) + [DigitChar(n % 10)];
    }
  }

  /** A two-digit minute and second field read back as seconds. */
  lemma ClockFields(m: int, sec: int)
    requires 0 <= m < 100 && 0 <= sec < 60
    ensures ParseClock(PadStart2(IntToString(m)) + ":" + PadStart2(IntToString(sec))) == Some(60 * m + sec)
  {
    TwoDigits(m);
    TwoDigits(sec);
    var clock := [DigitChar(m / 10), DigitChar(m % 10)] + ":" + [DigitChar(sec / 10), DigitChar(sec % 10)];
    assert DigitValue(clock[0]) == m / 10 && DigitValue(clock[1]) == m % 10;
    assert DigitValue(clock[3]) == sec / 10 && DigitValue(clock[4]) == sec % 10;
  }

  /** Below 100 minutes the clock is exactly five characters and reads back
      as the number of seconds it shows. */
  lemma FormattedTimeRoundTrip(t: int)
    requires 0 <= t < 6000
    ensures |FormattedTime(t)| == 5 && FormattedTime(t)[2] == ':'
    ensures ParseClock(FormattedTime(t)) == Some(t)
  {
    var m, sec := t / 60, t % 60;
    assert Rem(t, 60) == sec;
    TwoDigits(m);
    TwoDigits(sec);
    ClockFields(m, sec);
  }

  lemma FullWindowShowsTwoMinutes()
    ensures FormattedTime(ValiditySeconds) == "02:00"
  {
  }

  /** The pass contents for a student at time `now`. */
  function BuildPayload(s: Student, now: int): (p: Payload)
    ensures p.kind == MarkerType && p.apiEndpoint == AttendanceEndpoint
    ensures p.studentId == s.firebaseKey && p.rollNo == s.rollNo && p.timestamp == now
  {
    Payload(MarkerType, s.firebaseKey, s.rollNo, now, AttendanceEndpoint)
  }

  /** `stopTimer`: the interval is cleared; nothing else changes. */
  function StopTimer(st: QrState): (r: QrState)
    ensures !r.running
    ensures r.qrCodeUrl == st.qrCodeUrl && r.timeLeft == st.timeLeft
    ensures r.destroyed == st.destroyed
  {
    st.(running := false)
  }

  /** `startTimer`: any running interval is replaced, the window restarts. */
  function StartTimer(st: QrState): (r: QrState)
    ensures r.running && r.timeLeft == ValiditySeconds
    ensures Valid(r) && !IsExpired(r)
    ensures r.qrCodeUrl == st.qrCodeUrl && r.destroyed == st.destroyed
  {
    StopTimer(st).(timeLeft := ValiditySeconds, running := true)
  }

  /** One firing of the interval: count down, or at the last second clamp
      to zero and stop. A stopped timer does not fire. */
  function Tick(st: QrState): (r: QrState)
    ensures !st.running ==> r == st
    ensures st.running && st.timeLeft > 1 ==> r.timeLeft == st.timeLeft - 1 && r.running
    ensures st.running && st.timeLeft <= 1 ==> r.timeLeft == 0 && !r.running && IsExpired(r)
    ensures r.qrCodeUrl == st.qrCodeUrl && r.destroyed == st.destroyed
    ensures st.timeLeft >= 0 ==> r.timeLeft >= 0
    ensures IsExpired(st) ==> IsExpired(r)
  {
    if !st.running then st
    else if st.timeLeft <= 1 then StopTimer(st.(timeLeft := 0))
    else st.(timeLeft := st.timeLeft - 1)
  }

  /** `n` consecutive firings. */
  function Ticks(st: QrState, n: nat): QrState {
    if n == 0 then st else Tick(Ticks(st, n - 1))
  }

  /** `generateQr` as written: without a student, or when encoding fails,
      nothing changes; otherwise the new image is shown and the window
      restarts, whether or not the component was torn down meanwhile. */
  function GenerateQrAsWritten(st: QrState, student: Option<Student>, now: int, encode: Payload -> Option<string>): (r: QrState)
    ensures r.destroyed == st.destroyed
    ensures student.None? ==> r == st
    ensures student.Some? && encode(BuildPayload(student.value, now)).None? ==> r == st
    ensures student.Some? && encode(BuildPayload(student.value, now)).Some? ==>
      && r.qrCodeUrl == encode(BuildPayload(student.value, now))
      && r.timeLeft == ValiditySeconds && r.running && !IsExpired(r)
  {
    match student
    case None => st
    case Some(s) =>
      match encode(BuildPayload(s, now))
      case None => st
      case Some(url) => StartTimer(st.(qrCodeUrl := Some(url)))
  }

  /** `generateQr` with the teardown guard it evidently needs: a generation
      resolving on a torn-down component changes nothing; otherwise it is
      the code as written. */
  function GenerateQr(st: QrState, student: Option<Student>, now: int, encode: Payload -> Option<string>): (r: QrState)
    ensures st.destroyed ==> r == st
    ensures student.None? ==> r == st
    ensures student.Some? && encode(BuildPayload(student.value, now)).None? ==> r == st
    ensures !st.destroyed && student.Some? && encode(BuildPayload(student.value, now)).Some? ==>
      && r.qrCodeUrl == encode(BuildPayload(student.value, now))
      && r.timeLeft == ValiditySeconds && r.running && !IsExpired(r)
  {
    if st.destroyed then st else GenerateQrAsWritten(st, student, now, encode)
  }

  /** `ngOnDestroy`: teardown releases the timer. */
  function Destroy(st: QrState): (r: QrState)
    ensures !r.running && r.destroyed
    ensures Tick(r) == r
    ensures r.qrCodeUrl == st.qrCodeUrl && r.timeLeft == st.timeLeft
  {
    StopTimer(st).(destroyed := true)
  }

  function Step(st: QrState, e: Event, encode: Payload -> Option<string>): QrState {
    match e
    case TimerFired => Tick(st)
    case Generate(student, now) => GenerateQr(st, student, now, encode)
    case Destroyed => Destroy(st)
  }

  /** One event of the component as written, with no teardown guard. */
  function StepAsWritten(st: QrState, e: Event, encode: Payload -> Option<string>): QrState {
    match e
    case TimerFired => Tick(st)
    case Generate(student, now) => GenerateQrAsWritten(st, student, now, encode)
    case Destroyed => Destroy(st)
  }

  /** As written, every event keeps the countdown within its valid states. */
  lemma StepAsWrittenPreservesValid(st: QrState, e: Event, encode: Payload -> Option<string>)
    requires Valid(st)
    ensures Valid(StepAsWritten(st, e, encode))
  {
  }

  /** As written, the only way out of the expired state is a successful
      regeneration, on a live or a torn-down component alike. */
  lemma AsWrittenExpiryLeftOnlyByRegeneration(st: QrState, e: Event, encode: Payload -> Option<string>)
    requires IsExpired(st) && !IsExpired(StepAsWritten(st, e, encode))
    ensures e.Generate? && e.student.Some?
    ensures encode(BuildPayload(e.student.value, e.now)).Some?
  {
  }

  /** A sequence of events applied in order. */
  function Run(st: QrState, events: seq<Event>, encode: Payload -> Option<string>): QrState
    decreases |events|
  {
    if |events| == 0 then st else Run(Step(st, events[0], encode), events[1..], encode)
  }

  /** The leak in the code as written: a generation that resolves after
      teardown arms a new interval on the torn-down component, which then
      fires 120 times and ends expired. */
  lemma AsWrittenGenerateRearmsAfterDestroy(st: QrState, s: Student, now: int, encode: Payload -> Option<string>)
    requires encode(BuildPayload(s, now)).Some?
    ensures Destroy(st).destroyed
    ensures GenerateQrAsWritten(Destroy(st), Some(s), now, encode).running
    ensures IsExpired(Ticks(GenerateQrAsWritten(Destroy(st), Some(s), now, encode), ValiditySeconds))
  {
    var url := encode(BuildPayload(s, now)).value;
    CountdownFromStart(Destroy(st).(qrCodeUrl := Some(url)), ValiditySeconds);
  }

  /** With the guard, a torn-down component is inert: no sequence of events
      changes it, so in particular nothing re-arms its timer. */
  lemma {:induction false} DestroyedIsInert(st: QrState, events: seq<Event>, encode: Payload -> Option<string>)
    requires st.destroyed && !st.running
    ensures Run(st, events, encode) == st
    decreases |events|
  {
    if |events| > 0 {
      assert Step(st, events[0], encode) == st;
      DestroyedIsInert(st, events[1..], encode);
    }
  }

  /** After teardown no later events arm the timer again. */
  lemma NoRearmAfterDestroy(st: QrState, events: seq<Event>, encode: Payload -> Option<string>)
    ensures !Run(Destroy(st), events, encode).running
  {
    DestroyedIsInert(Destroy(st), events, encode);
  }

  /** With the teardown guard, every event keeps the component within its
      valid states. */
  lemma StepPreservesValid(st: QrState, e: Event, encode: Payload -> Option<string>)
    requires Valid(st)
    ensures Valid(Step(st, e, encode))
  {
  }

  /** With the teardown guard, the only way out of the expired state is a
      successful regeneration on a live component. */
  lemma ExpiryLeftOnlyByRegeneration(st: QrState, e: Event, encode: Payload -> Option<string>)
    requires IsExpired(st) && !IsExpired(Step(st, e, encode))
    ensures e.Generate? && e.student.Some? && !st.destroyed
    ensures encode(BuildPayload(e.student.value, e.now)).Some?
  {
  }

  /** From a fresh start the countdown shows 120 - n after n firings, stays
      live for the first 119, and after exactly 120 is expired and stopped. */
  lemma {:induction false} CountdownFromStart(st: QrState, n: nat)
    requires n <= ValiditySeconds
    ensures Ticks(StartTimer(st), n).timeLeft == ValiditySeconds - n
    ensures n < ValiditySeconds ==> Ticks(StartTimer(st), n).running
    ensures n == ValiditySeconds ==> !Ticks(StartTimer(st), n).running && IsExpired(Ticks(StartTimer(st), n))
  {
    if n > 0 {
      CountdownFromStart(st, n - 1);
    }
  }

  /** Once the countdown has run out, further firings change nothing. */
  lemma {:induction false} ExpiredIsFinal(st: QrState, k: nat)
    requires !st.running
    ensures Ticks(st, k) == st
  {
    if k > 0 {
      ExpiredIsFinal(st, k - 1);
    }
  }
}

=== FILE: records.dfy ===
/** The records the application reads from and writes to the remote
    document store (src/app/interfaces/student.interface.ts), and the
    key-to-record collections the store returns. */
module Records {
  import opened Wrappers

  /** A remote collection: the entries of a JSON object in enumeration order. */
  type Entries<R> = seq<(string, R)>

  /** A student record. Every property may be absent in stored data, and the
      store keeps the historical aliases `departmentId`/`sectionId` beside
      `deptId`/`secId`. `department` and `section` are display names filled
      in at login. */
  datatype Student = Student(
    id: Option<string>,
    firebaseKey: Option<string>,
    name: Option<string>,
    rollNo: Option<string>,
    fatherName: Option<string>,
    email: Option<string>,
    phone: Option<string>,
    deptId: Option<string>,
    secId: Option<string>,
    departmentId: Option<string>,
    sectionId: Option<string>,
    registeredAt: Option<string>,
    department: Option<string>,
    section: Option<string>)

  /** A stored department record (its key is held by the collection). */
  datatype DeptRecord = DeptRecord(id: Option<string>, name: Option<string>)

  /** A stored section record, naming its owning department. */
  datatype SecRecord = SecRecord(id: Option<string>, name: Option<string>, departmentId: Option<string>)

  /** `obj[key]` on a collection: the record stored under `key`, if any
      (the first such entry, which is the only one in a JSON object). */
  function Lookup<R>(m: Entries<R>, key: string): (r: Option<R>)
    ensures r.None? <==> forall i :: 0 <= i < |m| ==> m[i].0 != key
    ensures r.Some? ==> exists i :: 0 <= i < |m| && m[i] == (key, r.value)
                                   && forall j :: 0 <= j < i ==> m[j].0 != key
  {
    if |m| == 0 then None
    else if m[0].0 == key then Some(m[0].1)
    else Lookup(m[1..], key)
  }
}

=== FILE: student_store.dfy ===
/** The session store (StudentService): at most one registered student held
    in memory and mirrored into one durable storage slot. */
module StudentStore {
  import opened Wrappers
  import opened Records

  /** The storage item under the key "campus_access_student": missing, the
      empty string, or the serialised form of a student. */
  datatype Slot = Missing | Blank | Stored(student: Student)

  /** The in-memory student and the durable slot. */
  datatype Session = Session(student: Option<Student>, slot: Slot)

  /** `loadStudent`: the slot's student when it holds one; a missing or
      empty item reads as no student. */
  function LoadStudent(slot: Slot): (r: Option<Student>)
    ensures r.Some? <==> slot.Stored?
    ensures slot.Stored? ==> r.value == slot.student
  {
    match slot
    case Stored(s) => Some(s)
    case _ => None
  }

  /** Memory agrees with what reloading the slot would give. */
  predicate Coherent(ss: Session) {
    ss.student == LoadStudent(ss.slot)
  }

  /** `isRegistered`: a student is held. */
  predicate IsRegistered(ss: Session) {
    ss.student.Some?
  }

  /** The store as constructed at start-up from whatever the slot holds. */
  function Init(slot: Slot): (ss: Session)
    ensures Coherent(ss)
    ensures ss.slot == slot
    ensures IsRegistered(ss) <==> slot.Stored?
  {
    Session(LoadStudent(slot), slot)
  }

  /** `register(s)`: both the slot and memory now hold `s`. */
  function Register(ss: Session, s: Student): (r: Session)
    ensures Coherent(r)
    ensures IsRegistered(r)
    ensures r.student == Some(s)
    ensures LoadStudent(r.slot) == Some(s)
  {
    Session(Some(s), Stored(s))
  }

  /** `clear()`: the slot is removed and memory holds no student. */
  function Clear(ss: Session): (r: Session)
    ensures Coherent(r)
    ensures !IsRegistered(r)
    ensures r.slot == Missing
  {
    Session(None, Missing)
  }

  /** Clearing twice is clearing once. */
  lemma ClearIdempotent(ss: Session)
    ensures Clear(Clear(ss)) == Clear(ss)
  {
  }

  /** A registered student survives a restart: reloading gives it back. */
  lemma RegisterPersists(ss: Session, s: Student)
    ensures Init(Register(ss, s).slot) == Register(ss, s)
    ensures Init(Register(ss, s).slot).student == Some(s)
  {
  }

  /** Register then clear leaves no student, in memory or after a restart. */
  lemma RegisterThenClear(ss: Session, s: Student)
    ensures Clear(Register(ss, s)).student == None
    ensures Init(Clear(Register(ss, s)).slot).student == None
  {
  }
}

=== FILE: wrappers.dfy ===
/** Failure-compatible wrappers shared by the whole model: an optional value
    (a JavaScript property that may be absent, or a `null` response) and a
    success-or-error result (an RxJS stream that emits or errors). */
module Wrappers {

  datatype Option<+T> = None | Some(value: T) {

    /** The carried value, or `default` when there is none. */
    function GetOr(default: T): T {
      match this
      case Some(v) => v
      case None => default
    }
  }

  datatype Result<+R, +E> = Success(value: R) | Failure(error: E)
}
